=== FILE: README.md ===
# Sudoku puzzle generator, modelled in Dafny

`sudokuGame.py` defines a class `Sudoku(N, K)`. It builds an N-by-N puzzle with boxes of side
SRN = sqrt(N) in four steps:

1. It seeds the SRN boxes on the main diagonal with random digits.
2. It tries to complete the grid by backtracking in row-major order.
3. It empties K randomly chosen filled cells.
4. It prints the grid, using `.` for an empty cell.

The model follows the class member by member:

- `Config` holds the constructor's validation: its two error kinds and the integer square root.
- `Grids` holds the grid as a value (`seq<seq<int>>`). It defines the Sudoku rules over it:
  - the row, column and box "unused" tests and the safety test;
  - consistency and what a solved grid is;
  - the frames of each step;
  - the count of empty cells.

  It also holds the lemmas about these definitions.
- `Pigeonhole` counts digits. If a box is missing a digit, there is one left to draw. If a box holds N distinct digits, it holds all of them.
- `RandomSource` models Python's global `random` generator as a class. Its state is an endless fixed stream of raw draws and a cursor. `RandInt(lo, hi)` consumes one draw and returns `lo + draw % (hi - lo + 1)`. The predicate `Fair(m)` says that every pair of residues mod m shows up again, at a pair boundary, after any position. Under `Fair(N)` both rejection loops of the generator terminate.
- `SudokuGame` holds the class `Sudoku`. It has:
  - the constant fields `N`, `K` and `SRN`;
  - the grid field `mat`, which its methods reassign cell by cell, as the Python methods write `self.mat[i][j]`;
  - the imperative methods, with their loops and the recursion kept.
- `Render` is the text `print_sudoku` writes, together with its parser.

## Model

| member | source | states |
|---|---|---|
| Config.CheckConfig | sudokuGame.py:124-133 | Fails with the "Invalid Sudoku configuration." error exactly when N <= 0, K < 0 or K > N*N (checked first). Fails with the "N must be a perfect square." error exactly when those pass and N is not a perfect square. Otherwise it succeeds, with SRN > 0 and SRN*SRN == N |
| Config.FloorSqrt | sudokuGame.py:131 | The integer square root r of n: r*r <= n < (r+1)*(r+1) |
| Config.FloorSqrtOfSquare | sudokuGame.py:131-133 | N is a perfect square exactly when its integer square root squared is N, so the test `SRN * SRN != N` rejects exactly the non-squares |
| Config.CheckConfigExamples | sudokuGame.py:124-133 | (9, 40), (1, 0) and (4, 16) are accepted with SRN 3, 1 and 2. (4, 17) and (0, 0) are invalid configurations. (8, 0) is not a perfect square |
| SudokuGame.Sudoku.constructor | sudokuGame.py:122-135 | After the checks pass, N and K are stored and SRN is the root. The grid is N rows of N zeros |
| SudokuGame.Create | sudokuGame.py:122-135 | Construction fails exactly when the configuration check does, with the same error. Otherwise it gives a fresh object with an all-zero N-by-N grid and SRN*SRN == N |
| Grids.Set | sudokuGame.py:164 | Writing one cell keeps the grid's shape, puts v at (i, j) and leaves every other cell as it was |
| Grids.SetUndo | sudokuGame.py:195-198 | Writing back a cell's previous value restores the grid exactly |
| SudokuGame.Sudoku.IsUnusedInBox | sudokuGame.py:151-156 | The nested scan with early return is true exactly when num occurs in no cell of the SRN-by-SRN box at (rowStart, colStart). It only reads the grid |
| Grids.UnusedInRow | sudokuGame.py:172-173 | The membership test on row i holds exactly when no cell of row i holds num |
| Grids.UnusedInCol | sudokuGame.py:175-176 | The `all(...)` test over column j holds exactly when num is not among the column's cells read top to bottom |
| SudokuGame.Sudoku.IsSafe | sudokuGame.py:167-176 | True exactly when num occurs nowhere in row i, nowhere in column j and nowhere in the box with corner (i - i % SRN, j - j % SRN). It only reads the grid |
| Grids.CornerFits | sudokuGame.py:170 | For 0 <= x < N, the corner x - x % SRN is a multiple of SRN at or before x, and its box ends inside the grid |
| Grids.SafePlacementIff | sudokuGame.py:167-176 | On an empty cell of a consistent grid, the safety test holds exactly when writing num there keeps every row, column and box free of repeats |
| Grids.SafeKeepsConsistent | sudokuGame.py:194-195 | Writing a safe non-zero value into an empty cell of a consistent grid keeps it consistent |
| Grids.ConsistentMeansSafe | sudokuGame.py:167-170 | If writing num into an empty cell leaves the grid consistent, num was safe there |
| RandomSource.Random.RandInt | sudokuGame.py:162 | `random.randint(lo, hi)`, also used at lines 206-207: consumes exactly one draw and returns lo plus that draw reduced modulo the range size, a value in lo..hi |
| SudokuGame.Sudoku.DrawUnused | sudokuGame.py:161-165 | The `while True` loop draws 1..N until the draw is not in the box. It then writes that digit into cell (r, c) and nothing else. It ends on a fair stream while the box still lacks a digit |
| SudokuGame.Sudoku.FillBox | sudokuGame.py:158-165 | Starting from an empty box, the box afterwards holds a digit 1..N in every cell, no digit twice, and every digit 1..N. No cell outside the box changes |
| Grids.BoxFillStep | sudokuGame.py:163-164 | Writing an unused digit into the next empty cell of a box (in row-major order) keeps the box free of repeats. It extends the filled prefix by one cell and adds the digit to the box's used digits |
| Grids.BoxDone | sudokuGame.py:159-165 | A box filled to the end with N distinct recorded digits holds every digit 1..N |
| Pigeonhole.Misses | sudokuGame.py:161-163 | Fewer than n distinct digits miss some digit 1..n, so the rejection loop has a digit to find |
| Pigeonhole.Covers | sudokuGame.py:158-165 | n distinct digits from 1..n are all of them |
| Grids.BoxCovers | sudokuGame.py:158-165 | A box of N filled cells with pairwise-distinct digits holds every digit 1..N |
| SudokuGame.Sudoku.FillDiagonal | sudokuGame.py:147-149 | Starting from an all-zero grid, every box on the main diagonal holds 1..N without repeats, every other cell stays 0, and every box is free of repeats |
| Grids.DiagonalStep | sudokuGame.py:148-149 | Seeding diagonal box i, with the boxes before it already seeded, seeds every diagonal box up to i + SRN |
| Grids.OtherBoxUnchanged | sudokuGame.py:149 | Filling box (i, i) leaves every other box as it was |
| Grids.DiagonalPair | sudokuGame.py:147-149 | In a diagonal-seeded grid, two filled cells in one row or one column lie in the same diagonal box and hold different digits |
| Grids.DiagonalConsistent | sudokuGame.py:147-149 | A diagonal-seeded grid is consistent, because the diagonal boxes share no row, column or box |
| SudokuGame.Sudoku.FillRemaining | sudokuGame.py:178-201 | Cells that were filled on entry never change, and neither do cells before (i0, j0). Every value stays in 0..N. Consistency is preserved. On failure the grid is exactly as on entry. On success every cell from (i0, j0) on is filled. When every cell from (i0, j0) on is already filled on entry, it succeeds (the base case and the skip of filled cells). It terminates in row-major order |
| SudokuGame.Sudoku.TryDigits | sudokuGame.py:192-201 | The loop over 1..N at the empty cell (i, j) changes no cell before (i, j) and no filled cell, and keeps consistency. On failure the grid is exactly as on entry, with every tried value reset to 0. On success every cell from (i, j) on is filled |
| Grids.CompletionStep | sudokuGame.py:189-197 | Filling cell (i, j), or finding it filled, and then completing from the next position keeps the entry grid's filled cells and its cells before (i0, j0). A tail filled from the next position is filled from (i0, j0) |
| Grids.FilledFromStep | sudokuGame.py:180-190 | If everything from (i0, j0) on is filled, the cell that position names is filled and so is everything after it |
| Grids.SamePosition | sudokuGame.py:184-186 | Position (i0, N) and position (i0 + 1, 0) have the same cells before them and the same cells from them on |
| SudokuGame.Sudoku.BlankDrawn | sudokuGame.py:206-210 | One round of the removal loop consumes two draws. Those draws, reduced modulo N, name row i and column j. If cell (i, j) was filled, it becomes 0, every other cell keeps its value, and there is one more empty cell. If the cell was already empty, it reports a miss. In that case the grid is unchanged and the fair stream's next filled-cell pair is one round closer |
| SudokuGame.Sudoku.RemoveKDigits | sudokuGame.py:203-210 | Exactly K more cells are empty. Each changed cell went from filled to 0 and every other cell keeps its value. Consistency is preserved. The loop ends on a fair stream |
| SudokuGame.DrawsMiss | sudokuGame.py:205-208 | A round that draws an empty cell brings the next filled-cell draw one round closer |
| SudokuGame.FilledCellAhead | sudokuGame.py:205-208 | While some cell is filled, a fair stream names a filled cell in some later round |
| Grids.ZeroCountBlank | sudokuGame.py:208-210 | Emptying one filled cell adds exactly one empty cell |
| Grids.ZeroCountExtremes | sudokuGame.py:204-210 | The empty-cell count is at most N*N. It equals N*N exactly when every cell is empty, and 0 exactly when every cell is filled |
| Grids.SomeFilled | sudokuGame.py:208 | A grid with fewer than N*N empty cells has a filled cell |
| Grids.BlankStep | sudokuGame.py:208-210 | Emptying a filled cell keeps the grid well formed and only blanked relative to the start, with one more empty cell |
| Grids.BlankedTrans | sudokuGame.py:205-210 | Blanking cells in two rounds is blanking them relative to the start |
| Grids.BlankedConsistent | sudokuGame.py:208-209 | Emptying cells never creates a repeated value |
| SudokuGame.Sudoku.FillValues | sudokuGame.py:137-145 | Seeds the diagonal, tries to complete from (0, SRN) and blanks K cells. The grid is always consistent. When the completion succeeds, the completed grid is solved and the final grid is that solution with exactly K cells emptied. When it fails, the grid before blanking is the diagonal-seeded grid and the final grid only blanks cells of it: exactly K more cells are empty when K more can be emptied, and otherwise the grid is left as it was |
| Grids.SolvedIsLatin | sudokuGame.py:137-145 | In a solved grid every row, every column and every box holds each digit 1..N |
| SudokuGame.Sudoku.PrintSudoku | sudokuGame.py:212-214 | The printed text (one line per row, cells joined by single spaces, `.` for 0) parses back to the grid |
| Render.NatToString | sudokuGame.py:214 | `str(num)` for a natural number: non-empty decimal digits, starting with 0 only for 0, that read back as num |
| Render.Token | sudokuGame.py:214 | The token of one cell: non-empty, with no space or newline, reading back as the cell, and `.` exactly when the cell is empty. The parser reads only `.` as 0, so the round trip fixes how an empty cell is spelled |
| Render.Join | sudokuGame.py:214 | `" ".join`: splitting on the separator gives the parts back when no part contains it |
| Render.RenderRow | sudokuGame.py:214 | A printed line holds no newline, and a non-empty row reads back from it |
| Render.RenderGrid | sudokuGame.py:213-214 | The whole printout, each line ended by the newline `print` adds, reads back as the grid when no row is empty |
| Render.RenderRowExample | sudokuGame.py:214 | The rows [1, 0] and [0, 2] print as "1 ." and ". 2" |
| Render.RenderExample | sudokuGame.py:213-214 | The grid [[1, 0], [0, 2]] prints as "1 .\n. 2\n" |
| SudokuGame.StuckSeeded | sudokuGame.py:147-149 | The 4-by-4 grid whose top-left box holds 1, 2, 3, 4 and whose bottom-right box holds 3, 1, 4, 2, row by row, is a diagonal seeding: values in range, both diagonal boxes full, every other cell empty |
| SudokuGame.StuckZeros | sudokuGame.py:203-210 | That seeding has 8 empty cells |
| SudokuGame.StuckUnsafe | sudokuGame.py:192-194 | No digit 1..4 is safe at cell (0, 2) of that seeding |
| SudokuGame.StuckNoFill | sudokuGame.py:178-201 | No consistent in-range grid that keeps the seeds fills cell (0, 2) |
| SudokuGame.StuckCompletion | sudokuGame.py:142 | Completing that seeding from (0, 2) fails |

## Left out

- Randomness: `random.randint` is a stream of draws given to the methods as a `Random` object. The model does not state any distribution; it makes only the `Fair` assumption that rejection loops need in order to end. `RandInt` reduces a raw draw modulo the range size. Python's `randint` uses rejection sampling instead. Either way, any value in range can come out.
- TryDigits: `_fill_remaining`'s loop over the digits of an empty cell is a method of its own. It and FillRemaining call each other, so each proof stays small. The order of the tries, the writes and the undos is as in the source.
- DrawUnused: a method split out of `_fill_box`'s inner `while True` loop, so its termination argument stands alone. `BlankDrawn` is one round of `_remove_k_digits`'s loop, split out the same way. The loops themselves are otherwise as in the source.
- FillBox: it requires the box to be empty. `_fill_diagonal` only calls it on such boxes. On a box with cells already filled, the source's loop could spin forever.
- FillValues: completion from a diagonal seeding can fail (see "## Findings"), and the source ignores whether `_fill_remaining` succeeded. If it failed and fewer than K cells are filled, `_remove_k_digits` never ends. The model calls removal only when K more cells can be emptied, and otherwise reports the run as not completed.
- FillRemaining: it does not prove that failure means no completion exists, that the solution is unique, or anything about the search's recursion depth. Python's recursion limit is not modelled.
- Config.CheckConfig: `math.sqrt` works on floats, and the model uses the exact integer square root instead. Below 2^53 the outcome agrees. A perfect square gets its exact root, and a non-square is rejected even where `int(math.sqrt(N))` is one above the floor root (e.g. N = (2^26+1)^2 - 1). For very large perfect squares the float route can go wrong. For example, for N = (2^53 + 1)^2, `math.sqrt` returns 2^53 and the source raises "N must be a perfect square.", while the model accepts N with SRN = 2^53 + 1. For N of 2^1024 or more, `math.sqrt` raises OverflowError, which the model does not have.
- Console output of `print_sudoku` and the `__main__` driver (N = 9, K = 40) are I/O and are not modelled. The printed text is modelled as a string.
- The commented-out earlier implementation at the top of `sudokuGame.py` is dead code and is not modelled.
- Integers are unbounded, as in Python.

## Findings

| source | as written | input that shows it | evidently intended | confidence | as-written member | corrected member |
|---|---|---|---|---|---|---|
| sudokuGame.py:142-145 | `fill_values` ignores the result of `_fill_remaining(0, SRN)` and always runs `_remove_k_digits`, although a random diagonal seeding need not be completable | N = 4: `_fill_box(0, 0)` draws 1, 2, 3, 4 and `_fill_box(2, 2)` draws 3, 1, 4, 2. Row 0 then lacks 3 and 4, which column 2 already holds, so no digit is safe at (0, 2) and the completion fails. With K = 0 the puzzle keeps 8 empty cells; with K > 8 (e.g. K = 16) the removal loop never ends | Never loop forever, and report a run whose completion failed instead of treating its grid as a solution | high (not executed) | SudokuGame.StuckSeeded, SudokuGame.StuckUnsafe, SudokuGame.StuckCompletion | SudokuGame.Sudoku.FillValues |

=== FILE: config.dfy ===
/** Validation of the puzzle configuration (N, K) done by the Sudoku constructor. */
module Config {

  /** The two ValueError messages of the constructor. */
  datatype ConfigError =
    | InvalidConfiguration   // "Invalid Sudoku configuration."
    | NotPerfectSquare       // "N must be a perfect square."

  datatype Result<T> = Success(value: T) | Failure(error: ConfigError)

  /** s is the square root of n. */
  predicate IsRootOf(s: nat, n: int) {
    s * s == n
  }

  ghost predicate IsPerfectSquare(n: int) {
    exists s: nat :: IsRootOf(s, n)
  }

  lemma SquareLeq(a: nat, b: nat)
    requires a <= b
    ensures a * a <= b * b
  {
    assert a * a <= a * b;
  }

  /** Squares grow strictly between consecutive naturals. */
  lemma SquareOrder(a: nat, b: nat)
    ensures a < b ==> a * a < (a + 1) * (a + 1) <= b * b
  {
    if a < b {
      SquareLeq(a + 1, b);
    }
  }

  /** The integer square root: the largest r with r*r <= n, searched upward from r. */
  function SqrtFrom(n: nat, r: nat): (s: nat)
    requires r * r <= n
    ensures s * s <= n < (s + 1) * (s + 1)
    decreases n - r
  {
    if (r + 1) * (r + 1) > n then r
    else
      SquareLeq(1, r + 1);
      SqrtFrom(n, r + 1)
  }

  /** The integer square root of n. It stands in for `int(math.sqrt(N))`, which can differ by one
      on a non-square; the perfect-square test that follows rejects such an N either way. */
  function FloorSqrt(n: nat): (r: nat)
    ensures r * r <= n < (r + 1) * (r + 1)
  {
    SqrtFrom(n, 0)
  }

  /** A perfect square has its root as integer square root. */
  lemma {:induction false} FloorSqrtOfSquare(n: nat)
    ensures IsPerfectSquare(n) <==> IsRootOf(FloorSqrt(n), n)
  {
    var r := FloorSqrt(n);
    if IsPerfectSquare(n) {
      var s: nat :| IsRootOf(s, n);
      SquareOrder(r, s);
      SquareOrder(s, r);
    }
  }

  /** The constructor's checks, in order: the range test on N and K first, then the
      perfect-square test; on success the box side SRN. */
  function CheckConfig(n: int, k: int): (r: Result<nat>)
    ensures r == Failure(InvalidConfiguration) <==> n <= 0 || k < 0 || k > n * n
    ensures r == Failure(NotPerfectSquare) <==> 0 < n && 0 <= k <= n * n && !IsPerfectSquare(n)
    ensures r.Success? <==> 0 < n && 0 <= k <= n * n && IsPerfectSquare(n)
    ensures r.Success? ==> r.value > 0 && r.value * r.value == n
  {
    if n <= 0 || k < 0 || k > n * n then Failure(InvalidConfiguration)
    else
      var srn := FloorSqrt(n);
      FloorSqrtOfSquare(n);
      if srn * srn != n then Failure(NotPerfectSquare) else Success(srn)
  }

  /** Boundary cases of the configuration check. */
  lemma CheckConfigExamples()
    ensures CheckConfig(9, 40) == Success(3)
    ensures CheckConfig(1, 0) == Success(1)
    ensures CheckConfig(4, 16) == Success(2)
    ensures CheckConfig(4, 17) == Failure(InvalidConfiguration)
    ensures CheckConfig(0, 0) == Failure(InvalidConfiguration)
    ensures CheckConfig(8, 0) == Failure(NotPerfectSquare)
  {
    assert IsRootOf(3, 9) && IsRootOf(1, 1) && IsRootOf(2, 4);
    if IsPerfectSquare(8) {
      var s: nat :| IsRootOf(s, 8);
      if s >= 3 {
        SquareLeq(3, s);
      }
    }
  }
}

=== FILE: grids.dfy ===
/** The rules of an n-by-n Sudoku grid with srn-by-srn boxes, on grid values.
    A cell holds 0 when it is empty and a digit 1..n when it is filled. */
module Grids {
  import opened Pigeonhole

  /** Rows of cells, row-major: g[r][c] is the cell in row r, column c. */
  type Grid = seq<seq<int>>

  /** The box side srn of an n-by-n grid: n is a perfect square. */
  predicate Shape(n: nat, srn: nat) {
    srn > 0 && srn * srn == n
  }

  ghost predicate IsGrid(g: Grid, n: nat) {
    |g| == n && forall r :: 0 <= r < n ==> |g[r]| == n
  }

  /** Every cell is empty or holds a digit 1..n. */
  ghost predicate InRange(g: Grid, n: nat)
    requires IsGrid(g, n)
  {
    forall r, c :: 0 <= r < n && 0 <= c < n ==> 0 <= g[r][c] <= n
  }

  ghost predicate AllZero(g: Grid, n: nat)
    requires IsGrid(g, n)
  {
    forall r, c :: 0 <= r < n && 0 <= c < n ==> g[r][c] == 0
  }

  /** The grid with cell (i, j) set to v. */
  function Set(g: Grid, i: nat, j: nat, v: int): (g': Grid)
    requires i < |g| && j < |g[i]|
    ensures |g'| == |g| && forall r :: 0 <= r < |g| ==> |g'[r]| == |g[r]|
    ensures g'[i][j] == v
    ensures forall r, c :: 0 <= r < |g| && 0 <= c < |g[r]| && (r != i || c != j) ==> g'[r][c] == g[r][c]
  {
    g[i := g[i][j := v]]
  }

  /** Writing back the value a cell held before undoes a write. */
  lemma SetUndo(g: Grid, i: nat, j: nat, v: int)
    requires i < |g| && j < |g[i]|
    ensures Set(Set(g, i, j, v), i, j, g[i][j]) == g
  {
    assert Set(Set(g, i, j, v), i, j, g[i][j])[i] == g[i];
  }

  // ---------------------------------------------------------------------------
  // Boxes

  /** The first row (or column) of the box holding row (or column) x. */
  function Corner(x: int, srn: nat): int
    requires srn > 0
  {
    x - x % srn
  }

  /** Euclidean division is determined by its quotient and remainder. */
  lemma DivModUnique(x: int, m: int, q: int, r: int)
    requires m > 0 && 0 <= r < m && x == m * q + r
    ensures x / m == q && x % m == r
  {
    var q', r' := x / m, x % m;
    assert m * (q - q') == r' - r;
    if q - q' >= 1 {
      assert false;
    } else if q - q' <= -1 {
      assert false;
    }
  }

  lemma MulLeq(m: int, a: int, b: int)
    requires 0 <= m && a <= b
    ensures m * a <= m * b
  {
    assert m * b - m * a == m * (b - a);
  }

  /** A cell index below m*m has a quotient by m below m. */
  lemma QuotientBelow(x: int, m: int)
    requires m > 0 && 0 <= x < m * m
    ensures 0 <= x / m < m
  {
    var q := x / m;
    assert x == m * q + x % m;
    if q >= m {
      MulLeq(m, m, q);
    }
    if q < 0 {
      MulLeq(m, q, -1);
    }
  }

  /** A row x of an srn*srn grid lies in a box that ends inside the grid. */
  lemma CornerFits(x: int, n: nat, srn: nat)
    requires Shape(n, srn) && 0 <= x < n
    ensures 0 <= Corner(x, srn) <= x < Corner(x, srn) + srn <= n
    ensures Corner(x, srn) % srn == 0
  {
    var q := x / srn;
    QuotientBelow(x, srn);
    assert x == srn * q + x % srn;
    MulLeq(srn, q + 1, srn);
    assert srn * (q + 1) == srn * q + srn;
    DivModUnique(srn * q, srn, q, 0);
  }

  /** The next box along starts on a box boundary too. */
  lemma NextCorner(x: int, y: int, srn: nat)
    requires srn > 0 && x % srn == 0 && y == x + srn
    ensures y % srn == 0
  {
    assert x == srn * (x / srn) + x % srn;
    DivModUnique(x + srn, srn, x / srn + 1, 0);
  }

  /** Every row offset a < srn from a box's first row r0 lies in that box. */
  lemma CornerOfOffset(r0: int, a: int, srn: nat)
    requires srn > 0 && r0 % srn == 0 && 0 <= a < srn
    ensures Corner(r0 + a, srn) == r0
  {
    assert r0 == srn * (r0 / srn) + r0 % srn;
    DivModUnique(r0 + a, srn, r0 / srn, a);
  }

  /** No cell holds num in row i: the membership test on the row. */
  predicate UnusedInRow(g: Grid, i: nat, num: int): (u: bool)
    requires i < |g|
    ensures u <==> forall c :: 0 <= c < |g[i]| ==> g[i][c] != num
  {
    num !in g[i]
  }

  /** The cells of column j, top to bottom. */
  function Column(g: Grid, n: nat, j: nat): (col: seq<int>)
    requires IsGrid(g, n) && j < n
    ensures |col| == n && forall r :: 0 <= r < n ==> col[r] == g[r][j]
  {
    seq(n, r requires 0 <= r < n => g[r][j])
  }

  /** No cell holds num in column j: the cell-by-cell test down the column. */
  predicate UnusedInCol(g: Grid, n: nat, j: nat, num: int): (u: bool)
    requires IsGrid(g, n) && j < n
    ensures u <==> num !in Column(g, n, j)
  {
    forall r :: 0 <= r < n ==> g[r][j] != num
  }

  /** No cell holds num in the srn-by-srn box whose top-left cell is (r0, c0). */
  predicate UnusedInBox(g: Grid, n: nat, srn: nat, r0: nat, c0: nat, num: int)
    requires IsGrid(g, n) && r0 + srn <= n && c0 + srn <= n
  {
    forall r, c :: r0 <= r < r0 + srn && c0 <= c < c0 + srn ==> g[r][c] != num
  }

  /** num may go into cell (i, j): it is in neither its row, its column nor its box. */
  predicate IsSafe(g: Grid, n: nat, srn: nat, i: nat, j: nat, num: int)
    requires IsGrid(g, n) && Shape(n, srn) && i < n && j < n
  {
    CornerFits(i, n, srn);
    CornerFits(j, n, srn);
    UnusedInRow(g, i, num) && UnusedInCol(g, n, j, num)
    && UnusedInBox(g, n, srn, Corner(i, srn) as nat, Corner(j, srn) as nat, num)
  }

  // ---------------------------------------------------------------------------
  // Consistency: no filled value repeats in a row, a column or a box

  ghost predicate RowsOk(g: Grid, n: nat)
    requires IsGrid(g, n)
  {
    forall r, c1, c2 :: 0 <= r < n && 0 <= c1 < n && 0 <= c2 < n && c1 != c2 && g[r][c1] != 0
      ==> g[r][c1] != g[r][c2]
  }

  ghost predicate ColsOk(g: Grid, n: nat)
    requires IsGrid(g, n)
  {
    forall c, r1, r2 :: 0 <= c < n && 0 <= r1 < n && 0 <= r2 < n && r1 != r2 && g[r1][c] != 0
      ==> g[r1][c] != g[r2][c]
  }

  /** No filled value repeats inside the box with top-left cell (r0, c0). */
  ghost predicate BoxDistinct(g: Grid, n: nat, srn: nat, r0: nat, c0: nat)
    requires IsGrid(g, n) && r0 + srn <= n && c0 + srn <= n
  {
    forall r1, c1, r2, c2 ::
      r0 <= r1 < r0 + srn && c0 <= c1 < c0 + srn && r0 <= r2 < r0 + srn && c0 <= c2 < c0 + srn
      && (r1 != r2 || c1 != c2) && g[r1][c1] != 0
      ==> g[r1][c1] != g[r2][c2]
  }

  ghost predicate BoxesOk(g: Grid, n: nat, srn: nat)
    requires IsGrid(g, n) && Shape(n, srn)
  {
    forall r0: nat, c0: nat :: r0 + srn <= n && c0 + srn <= n && r0 % srn == 0 && c0 % srn == 0
      ==> BoxDistinct(g, n, srn, r0, c0)
  }

  ghost predicate Consistent(g: Grid, n: nat, srn: nat)
    requires IsGrid(g, n) && Shape(n, srn)
  {
    RowsOk(g, n) && ColsOk(g, n) && BoxesOk(g, n, srn)
  }

  /** A complete solution: consistent and every cell holds a digit 1..n. */
  ghost predicate Solved(g: Grid, n: nat, srn: nat) {
    IsGrid(g, n) && Shape(n, srn) && Consistent(g, n, srn)
    && forall r, c :: 0 <= r < n && 0 <= c < n ==> 1 <= g[r][c] <= n
  }

  /** g' is g with some filled cells emptied and nothing else changed. */
  ghost predicate Blanked(g': Grid, g: Grid, n: nat)
    requires IsGrid(g', n) && IsGrid(g, n)
  {
    forall r, c :: 0 <= r < n && 0 <= c < n ==> g'[r][c] == g[r][c] || g'[r][c] == 0
  }

  /** g' keeps every filled cell of g. */
  ghost predicate Extends(g': Grid, g: Grid, n: nat)
    requires IsGrid(g', n) && IsGrid(g, n)
  {
    forall r, c :: 0 <= r < n && 0 <= c < n && g[r][c] != 0 ==> g'[r][c] == g[r][c]
  }

  /** Cell (r, c) comes before position (i, j) in row-major order;
      position (i, n) is the same as position (i + 1, 0). */
  predicate Before(r: int, c: int, i: int, j: int) {
    r < i || (r == i && c < j)
  }

  /** g' agrees with g on every cell before position (i, j). */
  ghost predicate SameBefore(g': Grid, g: Grid, n: nat, i: int, j: int)
    requires IsGrid(g', n) && IsGrid(g, n)
  {
    forall r, c :: 0 <= r < n && 0 <= c < n && Before(r, c, i, j) ==> g'[r][c] == g[r][c]
  }

  /** Every cell at or after position (i, j) is filled. */
  ghost predicate FilledFrom(g: Grid, n: nat, i: int, j: int)
    requires IsGrid(g, n)
  {
    forall r, c :: 0 <= r < n && 0 <= c < n && !Before(r, c, i, j) ==> g[r][c] != 0
  }

  /** One step of the row-major completion: position (i0, j0) names cell (i, j) (wrapping
      (i0, n) to (i0 + 1, 0)); g1 is g0 with cell (i, j) filled, and g2 comes from g1 by
      completing from the next position. Then g2 also keeps g0's filled cells and g0's cells
      before (i0, j0), and a filled tail from the next position is a filled tail from (i0, j0). */
  lemma CompletionStep(g2: Grid, g1: Grid, g0: Grid, n: nat, i0: nat, j0: nat, i: nat, j: nat)
    requires IsGrid(g2, n) && IsGrid(g1, n) && IsGrid(g0, n) && i < n && j < n
    requires if j0 == n then i == i0 + 1 && j == 0 else i == i0 && j == j0
    requires forall r, c :: 0 <= r < n && 0 <= c < n && (r != i || c != j) ==> g1[r][c] == g0[r][c]
    requires g1[i][j] != 0 && (g0[i][j] != 0 ==> g1[i][j] == g0[i][j])
    requires Extends(g2, g1, n) && SameBefore(g2, g1, n, i, j + 1)
    ensures Extends(g2, g0, n) && SameBefore(g2, g0, n, i0, j0)
    ensures FilledFrom(g2, n, i, j + 1) ==> FilledFrom(g2, n, i0, j0)
  {
  }

  /** Position (i0, j0) names cell (i, j), so the cells before the two positions are the same
      and so are the cells from them on. */
  lemma SamePosition(g': Grid, g: Grid, n: nat, i0: nat, j0: nat, i: nat, j: nat)
    requires IsGrid(g', n) && IsGrid(g, n) && i < n && j < n
    requires if j0 == n then i == i0 + 1 && j == 0 else i == i0 && j == j0
    ensures SameBefore(g', g, n, i, j) ==> SameBefore(g', g, n, i0, j0)
    ensures FilledFrom(g', n, i, j) ==> FilledFrom(g', n, i0, j0)
  {
  }

  /** Position (i0, j0) names cell (i, j): a tail filled from (i0, j0) is filled at (i, j)
      and from the position after it. */
  lemma FilledFromStep(g: Grid, n: nat, i0: nat, j0: nat, i: nat, j: nat)
    requires IsGrid(g, n) && i < n && j < n
    requires if j0 == n then i == i0 + 1 && j == 0 else i == i0 && j == j0
    ensures FilledFrom(g, n, i0, j0) ==> g[i][j] != 0 && FilledFrom(g, n, i, j + 1)
  {
  }

  // ---------------------------------------------------------------------------
  // Placing a value

  lemma SafeKeepsRows(g: Grid, n: nat, i: nat, j: nat, num: int)
    requires IsGrid(g, n) && RowsOk(g, n) && i < n && j < n && g[i][j] == 0
    requires UnusedInRow(g, i, num)
    ensures RowsOk(Set(g, i, j, num), n)
  {
    var g' := Set(g, i, j, num);
    forall r, c1, c2 | 0 <= r < n && 0 <= c1 < n && 0 <= c2 < n && c1 != c2 && g'[r][c1] != 0
      ensures g'[r][c1] != g'[r][c2]
    {
      if r == i && c1 == j {
        assert g[r][c2] in g[i];
      } else if r == i && c2 == j {
        assert g[r][c1] in g[i];
      }
    }
  }

  lemma SafeKeepsCols(g: Grid, n: nat, i: nat, j: nat, num: int)
    requires IsGrid(g, n) && ColsOk(g, n) && i < n && j < n && g[i][j] == 0
    requires UnusedInCol(g, n, j, num)
    ensures ColsOk(Set(g, i, j, num), n)
  {
  }

  lemma SafeKeepsBoxes(g: Grid, n: nat, srn: nat, i: nat, j: nat, num: int)
    requires IsGrid(g, n) && Shape(n, srn) && BoxesOk(g, n, srn) && i < n && j < n && g[i][j] == 0
    requires Corner(i, srn) >= 0 && Corner(j, srn) >= 0
    requires Corner(i, srn) + srn <= n && Corner(j, srn) + srn <= n
    requires UnusedInBox(g, n, srn, Corner(i, srn) as nat, Corner(j, srn) as nat, num)
    ensures BoxesOk(Set(g, i, j, num), n, srn)
  {
    var g' := Set(g, i, j, num);
    forall r0: nat, c0: nat | r0 + srn <= n && c0 + srn <= n && r0 % srn == 0 && c0 % srn == 0
      ensures BoxDistinct(g', n, srn, r0, c0)
    {
      assert BoxDistinct(g, n, srn, r0, c0);
      if r0 <= i < r0 + srn && c0 <= j < c0 + srn {
        CornerOfOffset(r0, i - r0, srn);
        CornerOfOffset(c0, j - c0, srn);
      }
    }
  }

  /** In a consistent grid, an empty cell's safe value keeps the grid consistent. */
  lemma SafeKeepsConsistent(g: Grid, n: nat, srn: nat, i: nat, j: nat, num: int)
    requires IsGrid(g, n) && Shape(n, srn) && Consistent(g, n, srn)
    requires i < n && j < n && g[i][j] == 0 && num != 0
    requires IsSafe(g, n, srn, i, j, num)
    ensures Consistent(Set(g, i, j, num), n, srn)
  {
    CornerFits(i, n, srn);
    CornerFits(j, n, srn);
    SafeKeepsRows(g, n, i, j, num);
    SafeKeepsCols(g, n, i, j, num);
    SafeKeepsBoxes(g, n, srn, i, j, num);
  }

  /** If placing num into an empty cell keeps the grid consistent, num was safe there. */
  lemma ConsistentMeansSafe(g: Grid, n: nat, srn: nat, i: nat, j: nat, num: int)
    requires IsGrid(g, n) && Shape(n, srn)
    requires i < n && j < n && g[i][j] == 0 && num != 0
    requires Consistent(Set(g, i, j, num), n, srn)
    ensures IsSafe(g, n, srn, i, j, num)
  {
    var g' := Set(g, i, j, num);
    CornerFits(i, n, srn);
    CornerFits(j, n, srn);
    var bi, bj := Corner(i, srn), Corner(j, srn);
    forall c | 0 <= c < n ensures g[i][c] != num {
      if c != j {
        assert g'[i][j] != g'[i][c];
      }
    }
    assert UnusedInRow(g, i, num);
    forall r | 0 <= r < n ensures g[r][j] != num {
      if r != i {
        assert g'[i][j] != g'[r][j];
      }
    }
    assert BoxDistinct(g', n, srn, bi as nat, bj as nat);
  }

  /** The placement rule: for an empty cell of a consistent grid, IsSafe holds exactly
      when writing num there leaves the grid consistent. */
  lemma SafePlacementIff(g: Grid, n: nat, srn: nat, i: nat, j: nat, num: int)
    requires IsGrid(g, n) && Shape(n, srn) && Consistent(g, n, srn)
    requires i < n && j < n && g[i][j] == 0 && num != 0
    ensures IsSafe(g, n, srn, i, j, num) <==> Consistent(Set(g, i, j, num), n, srn)
  {
    if IsSafe(g, n, srn, i, j, num) {
      SafeKeepsConsistent(g, n, srn, i, j, num);
    }
    if Consistent(Set(g, i, j, num), n, srn) {
      ConsistentMeansSafe(g, n, srn, i, j, num);
    }
  }

  /** Emptying cells never creates a repeated value. */
  lemma BlankedConsistent(g': Grid, g: Grid, n: nat, srn: nat)
    requires IsGrid(g', n) && IsGrid(g, n) && Shape(n, srn)
    requires Blanked(g', g, n) && Consistent(g, n, srn)
    ensures Consistent(g', n, srn)
  {
    forall r0: nat, c0: nat | r0 + srn <= n && c0 + srn <= n && r0 % srn == 0 && c0 % srn == 0
      ensures BoxDistinct(g', n, srn, r0, c0)
    {
      assert BoxDistinct(g, n, srn, r0, c0);
    }
  }

  // ---------------------------------------------------------------------------
  // Diagonal boxes

  /** The diagonal boxes whose first row is below b are full of digits, every other cell
      is empty, and no box repeats a value. */
  ghost predicate SeededBelow(g: Grid, n: nat, srn: nat, b: int)
    requires IsGrid(g, n) && Shape(n, srn)
  {
    (forall r, c :: 0 <= r < n && 0 <= c < n ==>
       if Corner(r, srn) == Corner(c, srn) && Corner(r, srn) < b then 1 <= g[r][c] <= n else g[r][c] == 0)
    && BoxesOk(g, n, srn)
  }

  /** After seeding: every box on the main diagonal is full of distinct digits,
      every other cell is empty. */
  ghost predicate DiagonalSeeded(g: Grid, n: nat, srn: nat)
    requires IsGrid(g, n) && Shape(n, srn)
  {
    SeededBelow(g, n, srn, n)
  }

  /** Two aligned box starts less than a box apart are equal. */
  lemma AlignedEqual(x: int, y: int, srn: nat)
    requires srn > 0 && x % srn == 0 && y % srn == 0 && y <= x < y + srn
    ensures x == y
  {
    CornerOfOffset(y, x - y, srn);
  }

  /** Nothing is seeded yet in an all-zero grid. */
  lemma SeededStart(g: Grid, n: nat, srn: nat)
    requires IsGrid(g, n) && Shape(n, srn) && AllZero(g, n)
    ensures SeededBelow(g, n, srn, 0)
  {
    forall r, c | 0 <= r < n && 0 <= c < n
      ensures Corner(r, srn) >= 0 && g[r][c] == 0
    {
      CornerFits(r, n, srn);
    }
    forall r0: nat, c0: nat | r0 + srn <= n && c0 + srn <= n && r0 % srn == 0 && c0 % srn == 0
      ensures BoxDistinct(g, n, srn, r0, c0)
    {
    }
  }

  /** g' differs from g at most inside the box with top-left cell (r0, c0). */
  ghost predicate OutsideUnchanged(g': Grid, g: Grid, n: nat, srn: nat, r0: nat, c0: nat)
    requires IsGrid(g', n) && IsGrid(g, n)
  {
    forall r, c :: 0 <= r < n && 0 <= c < n && !(r0 <= r < r0 + srn && c0 <= c < c0 + srn)
      ==> g'[r][c] == g[r][c]
  }

  /** Before diagonal box i is seeded, its cells are all empty. */
  lemma DiagonalBoxEmpty(g: Grid, n: nat, srn: nat, i: nat)
    requires IsGrid(g, n) && Shape(n, srn) && SeededBelow(g, n, srn, i)
    requires i % srn == 0 && i + srn <= n
    ensures forall r, c :: i <= r < i + srn && i <= c < i + srn ==> g[r][c] == 0
  {
    forall r, c | i <= r < i + srn && i <= c < i + srn ensures g[r][c] == 0 {
      CornerOfOffset(i, r - i, srn);
      CornerOfOffset(i, c - i, srn);
    }
  }

  /** Filling an empty box with pairwise-distinct digits keeps it free of repeats. */
  lemma BoxDistinctAfterSet(g: Grid, n: nat, srn: nat, r0: nat, c0: nat, i: nat, j: nat, num: int)
    requires IsGrid(g, n) && r0 + srn <= n && c0 + srn <= n
    requires r0 <= i < r0 + srn && c0 <= j < c0 + srn
    requires BoxDistinct(g, n, srn, r0, c0) && UnusedInBox(g, n, srn, r0, c0, num)
    ensures BoxDistinct(Set(g, i, j, num), n, srn, r0, c0)
  {
  }

  /** Writing num into an empty box cell makes num the only value that becomes used. */
  lemma UnusedInBoxAfterSet(g: Grid, n: nat, srn: nat, r0: nat, c0: nat, i: nat, j: nat, num: int)
    requires IsGrid(g, n) && r0 + srn <= n && c0 + srn <= n
    requires r0 <= i < r0 + srn && c0 <= j < c0 + srn && g[i][j] == 0
    ensures forall v :: v != 0 ==>
      (UnusedInBox(Set(g, i, j, num), n, srn, r0, c0, v) <==> UnusedInBox(g, n, srn, r0, c0, v) && v != num)
  {
    var g' := Set(g, i, j, num);
    forall v | v != 0
      ensures UnusedInBox(g', n, srn, r0, c0, v) <==> UnusedInBox(g, n, srn, r0, c0, v) && v != num
    {
      if UnusedInBox(g', n, srn, r0, c0, v) {
        assert g'[i][j] != v;
      }
    }
  }

  /** Inside the box at (row, col), the cells before position (i, j) hold digits and the
      others are empty. */
  ghost predicate BoxFilledBefore(g: Grid, n: nat, srn: nat, row: nat, col: nat, i: int, j: int)
    requires IsGrid(g, n) && row + srn <= n && col + srn <= n
  {
    forall r, c :: row <= r < row + srn && col <= c < col + srn ==>
      if Before(r, c, i, j) then 1 <= g[r][c] <= n else g[r][c] == 0
  }

  /** used lists, without repeats, exactly the digits found in the box at (row, col). */
  ghost predicate UsedInBox(g: Grid, n: nat, srn: nat, row: nat, col: nat, used: seq<int>)
    requires IsGrid(g, n) && row + srn <= n && col + srn <= n
  {
    Distinct(used) && (forall k :: 0 <= k < |used| ==> 1 <= used[k] <= n)
    && forall v :: v != 0 ==> (v in used <==> !UnusedInBox(g, n, srn, row, col, v))
  }

  /** g' is g with the box at (row, col) filled: every other cell is unchanged and the box
      holds each digit 1..n exactly once. */
  ghost predicate BoxSeeded(g': Grid, g: Grid, n: nat, srn: nat, row: nat, col: nat)
    requires IsGrid(g', n) && IsGrid(g, n) && row + srn <= n && col + srn <= n
  {
    OutsideUnchanged(g', g, n, srn, row, col)
    && (forall r, c :: row <= r < row + srn && col <= c < col + srn ==> 1 <= g'[r][c] <= n)
    && BoxDistinct(g', n, srn, row, col)
    && forall v :: 1 <= v <= n ==> !UnusedInBox(g', n, srn, row, col, v)
  }

  /** The state of a box half-way through filling it in row-major order, up to cell (i, j). */
  ghost predicate BoxProgress(g: Grid, g0: Grid, n: nat, srn: nat, row: nat, col: nat, i: int, j: int,
                              used: seq<int>)
    requires IsGrid(g, n) && IsGrid(g0, n) && row + srn <= n && col + srn <= n
  {
    OutsideUnchanged(g, g0, n, srn, row, col) && BoxFilledBefore(g, n, srn, row, col, i, j)
    && BoxDistinct(g, n, srn, row, col) && UsedInBox(g, n, srn, row, col, used)
  }

  /** Writing a digit the box lacks into its next empty cell, in row-major order, keeps
      the box's filled prefix, its record of used digits and its freedom from repeats. */
  lemma BoxFillStep(g': Grid, g: Grid, g0: Grid, n: nat, srn: nat, row: nat, col: nat, i: nat,
                    j: nat, j': nat, num: int, used': seq<int>, used: seq<int>)
    requires IsGrid(g, n) && IsGrid(g0, n) && row + srn <= n && col + srn <= n && i < srn && j < srn
    requires BoxProgress(g, g0, n, srn, row, col, row + i, col + j, used)
    requires 1 <= num <= n && UnusedInBox(g, n, srn, row, col, num)
    requires g' == Set(g, row + i, col + j, num) && j' == j + 1 && used' == used + [num]
    ensures IsGrid(g', n)
    ensures BoxProgress(g', g0, n, srn, row, col, row + i, col + j', used')
  {
    BoxFilledAfterSet(g, n, srn, row, col, i, j, num);
    BoxDistinctAfterSet(g, n, srn, row, col, row + i, col + j, num);
    UsedInBoxAfterSet(g, n, srn, row, col, row + i, col + j, num, used);
  }

  /** Writing a digit into the next empty cell of a box moves its filled prefix one cell on. */
  lemma BoxFilledAfterSet(g: Grid, n: nat, srn: nat, row: nat, col: nat, i: nat, j: nat, num: int)
    requires IsGrid(g, n) && row + srn <= n && col + srn <= n && i < srn && j < srn
    requires BoxFilledBefore(g, n, srn, row, col, row + i, col + j) && 1 <= num <= n
    ensures BoxFilledBefore(Set(g, row + i, col + j, num), n, srn, row, col, row + i, col + (j + 1))
  {
  }

  /** Writing an unused digit into an empty box cell adds it to the box's used digits. */
  lemma UsedInBoxAfterSet(g: Grid, n: nat, srn: nat, row: nat, col: nat, i: nat, j: nat, num: int,
                          used: seq<int>)
    requires IsGrid(g, n) && row + srn <= n && col + srn <= n
    requires row <= i < row + srn && col <= j < col + srn && g[i][j] == 0
    requires UsedInBox(g, n, srn, row, col, used) && 1 <= num <= n && UnusedInBox(g, n, srn, row, col, num)
    ensures UsedInBox(Set(g, i, j, num), n, srn, row, col, used + [num])
  {
    UnusedInBoxAfterSet(g, n, srn, row, col, i, j, num);
    assert num !in used;
  }

  /** Finishing a row of the box is starting the next one. */
  lemma BoxRowDone(g: Grid, g0: Grid, n: nat, srn: nat, row: nat, col: nat, i: nat, i': nat,
                   used: seq<int>)
    requires IsGrid(g, n) && IsGrid(g0, n) && row + srn <= n && col + srn <= n && i' == i + 1
    requires BoxProgress(g, g0, n, srn, row, col, row + i, col + srn, used)
    ensures BoxProgress(g, g0, n, srn, row, col, row + i', col, used)
    ensures i' * srn == i * srn + srn
  {
  }

  /** A box filled to the end, with all n digits recorded, is seeded. */
  lemma BoxDone(g: Grid, g0: Grid, n: nat, srn: nat, row: nat, col: nat, used: seq<int>)
    requires IsGrid(g, n) && IsGrid(g0, n) && row + srn <= n && col + srn <= n
    requires BoxProgress(g, g0, n, srn, row, col, row + srn, col, used) && |used| == n
    ensures BoxSeeded(g, g0, n, srn, row, col)
  {
    Covers(used, n);
  }

  /** A box other than the one at (i, i) is left alone when only box (i, i) changes. */
  lemma OtherBoxUnchanged(g': Grid, g: Grid, n: nat, srn: nat, i: nat, r0: nat, c0: nat)
    requires IsGrid(g', n) && IsGrid(g, n) && Shape(n, srn)
    requires i % srn == 0 && i + srn <= n && OutsideUnchanged(g', g, n, srn, i, i)
    requires r0 % srn == 0 && c0 % srn == 0 && r0 + srn <= n && c0 + srn <= n && (r0 != i || c0 != i)
    requires BoxDistinct(g, n, srn, r0, c0)
    ensures BoxDistinct(g', n, srn, r0, c0)
  {
    forall r, c | r0 <= r < r0 + srn && c0 <= c < c0 + srn ensures g'[r][c] == g[r][c] {
      if i <= r < i + srn && i <= c < i + srn {
        CornerOfOffset(r0, r - r0, srn);
        CornerOfOffset(i, r - i, srn);
        CornerOfOffset(c0, c - c0, srn);
        CornerOfOffset(i, c - i, srn);
      }
    }
  }

  /** Seeding diagonal box i, on top of the boxes before it, seeds every box up to i + srn. */
  lemma DiagonalStep(g': Grid, g: Grid, n: nat, srn: nat, i: nat)
    requires IsGrid(g', n) && IsGrid(g, n) && Shape(n, srn)
    requires i % srn == 0 && i + srn <= n
    requires SeededBelow(g, n, srn, i) && BoxSeeded(g', g, n, srn, i, i)
    ensures SeededBelow(g', n, srn, i + srn)
  {
    forall r, c | 0 <= r < n && 0 <= c < n
      ensures if Corner(r, srn) == Corner(c, srn) && Corner(r, srn) < i + srn
              then 1 <= g'[r][c] <= n else g'[r][c] == 0
    {
      CornerFits(r, n, srn);
      CornerFits(c, n, srn);
      if i <= r < i + srn && i <= c < i + srn {
        CornerOfOffset(i, r - i, srn);
        CornerOfOffset(i, c - i, srn);
      } else if Corner(r, srn) == Corner(c, srn) && i <= Corner(r, srn) < i + srn {
        AlignedEqual(Corner(r, srn), i, srn);
        assert false;
      }
    }
    forall r0: nat, c0: nat | r0 + srn <= n && c0 + srn <= n && r0 % srn == 0 && c0 % srn == 0
      ensures BoxDistinct(g', n, srn, r0, c0)
    {
      if r0 != i || c0 != i {
        OtherBoxUnchanged(g', g, n, srn, i, r0, c0);
      }
    }
  }

  /** Two filled cells of a seeded grid that share a row or a column share a diagonal box. */
  lemma DiagonalPair(g: Grid, n: nat, srn: nat, r1: nat, c1: nat, r2: nat, c2: nat)
    requires IsGrid(g, n) && Shape(n, srn) && DiagonalSeeded(g, n, srn)
    requires r1 < n && c1 < n && r2 < n && c2 < n && (r1 == r2 || c1 == c2) && (r1 != r2 || c1 != c2)
    requires g[r1][c1] != 0 && g[r2][c2] != 0
    ensures g[r1][c1] != g[r2][c2]
  {
    CornerFits(r1, n, srn);
    CornerFits(c1, n, srn);
    CornerFits(r2, n, srn);
    CornerFits(c2, n, srn);
    var b := Corner(r1, srn);
    assert Corner(r1, srn) == Corner(c1, srn) && Corner(r2, srn) == Corner(c2, srn);
    assert BoxDistinct(g, n, srn, b as nat, b as nat);
  }

  /** The diagonal boxes share no row, column or box, so a seeded grid is consistent. */
  lemma DiagonalConsistent(g: Grid, n: nat, srn: nat)
    requires IsGrid(g, n) && Shape(n, srn) && DiagonalSeeded(g, n, srn)
    ensures Consistent(g, n, srn)
  {
    forall r, c1, c2 | 0 <= r < n && 0 <= c1 < n && 0 <= c2 < n && c1 != c2 && g[r][c1] != 0
      ensures g[r][c1] != g[r][c2]
    {
      if g[r][c2] != 0 {
        DiagonalPair(g, n, srn, r, c1, r, c2);
      }
    }
    forall c, r1, r2 | 0 <= c < n && 0 <= r1 < n && 0 <= r2 < n && r1 != r2 && g[r1][c] != 0
      ensures g[r1][c] != g[r2][c]
    {
      if g[r2][c] != 0 {
        DiagonalPair(g, n, srn, r1, c, r2, c);
      }
    }
  }

  // ---------------------------------------------------------------------------
  // Full rows, columns and boxes are permutations of 1..n

  /** Cell k of the box at (r0, c0), in row-major order within the box. */
  function BoxCell(g: Grid, n: nat, srn: nat, r0: nat, c0: nat, k: nat): int
    requires IsGrid(g, n) && Shape(n, srn) && r0 + srn <= n && c0 + srn <= n && k < n
  {
    QuotientBelow(k, srn);
    g[r0 + k / srn][c0 + k % srn]
  }

  /** Different positions within a box name different cells. */
  lemma DivModInjective(p: int, q: int, m: int)
    requires m > 0 && p / m == q / m && p % m == q % m
    ensures p == q
  {
    assert p == m * (p / m) + p % m;
    assert q == m * (q / m) + q % m;
  }

  lemma BoxCellsDistinct(g: Grid, n: nat, srn: nat, r0: nat, c0: nat, p: nat, q: nat)
    requires IsGrid(g, n) && Shape(n, srn) && r0 + srn <= n && c0 + srn <= n
    requires forall r, c :: r0 <= r < r0 + srn && c0 <= c < c0 + srn ==> 1 <= g[r][c] <= n
    requires BoxDistinct(g, n, srn, r0, c0)
    requires p < q < n
    ensures BoxCell(g, n, srn, r0, c0, p) != BoxCell(g, n, srn, r0, c0, q)
  {
    QuotientBelow(p, srn);
    QuotientBelow(q, srn);
    if p / srn == q / srn && p % srn == q % srn {
      DivModInjective(p, q, srn);
    }
    var r1, c1, r2, c2 := r0 + p / srn, c0 + p % srn, r0 + q / srn, c0 + q % srn;
    assert g[r1][c1] != 0;
  }

  lemma BoxCellInBox(g: Grid, n: nat, srn: nat, r0: nat, c0: nat, k: nat)
    requires IsGrid(g, n) && Shape(n, srn) && r0 + srn <= n && c0 + srn <= n && k < n
    requires forall r, c :: r0 <= r < r0 + srn && c0 <= c < c0 + srn ==> 1 <= g[r][c] <= n
    ensures 1 <= BoxCell(g, n, srn, r0, c0, k) <= n
    ensures !UnusedInBox(g, n, srn, r0, c0, BoxCell(g, n, srn, r0, c0, k))
  {
    QuotientBelow(k, srn);
    var r, c := r0 + k / srn, c0 + k % srn;
    assert g[r][c] == BoxCell(g, n, srn, r0, c0, k);
  }

  /** A box whose n cells hold pairwise-distinct digits holds every digit 1..n. */
  lemma BoxCovers(g: Grid, n: nat, srn: nat, r0: nat, c0: nat)
    requires IsGrid(g, n) && Shape(n, srn) && r0 + srn <= n && c0 + srn <= n
    requires forall r, c :: r0 <= r < r0 + srn && c0 <= c < c0 + srn ==> 1 <= g[r][c] <= n
    requires BoxDistinct(g, n, srn, r0, c0)
    ensures forall v :: 1 <= v <= n ==> !UnusedInBox(g, n, srn, r0, c0, v)
  {
    var s := seq(n, k requires 0 <= k < n => BoxCell(g, n, srn, r0, c0, k));
    forall p, q | 0 <= p < q < |s| ensures s[p] != s[q] {
      BoxCellsDistinct(g, n, srn, r0, c0, p, q);
    }
    forall k | 0 <= k < n ensures 1 <= s[k] <= n {
      BoxCellInBox(g, n, srn, r0, c0, k);
    }
    Covers(s, n);
    forall v | 1 <= v <= n ensures !UnusedInBox(g, n, srn, r0, c0, v) {
      assert v in s;
      var k :| 0 <= k < |s| && s[k] == v;
      BoxCellInBox(g, n, srn, r0, c0, k);
    }
  }

  /** In a solved grid every row, column and box holds each digit 1..n exactly once. */
  lemma SolvedIsLatin(g: Grid, n: nat, srn: nat)
    requires Solved(g, n, srn)
    ensures forall r, v :: 0 <= r < n && 1 <= v <= n ==> !UnusedInRow(g, r, v)
    ensures forall c, v :: 0 <= c < n && 1 <= v <= n ==> !UnusedInCol(g, n, c, v)
    ensures forall r0: nat, c0: nat, v ::
      r0 + srn <= n && c0 + srn <= n && r0 % srn == 0 && c0 % srn == 0 && 1 <= v <= n
      ==> !UnusedInBox(g, n, srn, r0, c0, v)
  {
    forall r | 0 <= r < n ensures forall v :: 1 <= v <= n ==> v in g[r] {
      Covers(g[r], n);
    }
    forall c, v | 0 <= c < n && 1 <= v <= n ensures !UnusedInCol(g, n, c, v) {
      var col := seq(n, r requires 0 <= r < n => g[r][c]);
      Covers(col, n);
      assert v in col;
      var r :| 0 <= r < n && col[r] == v;
      assert g[r][c] == v;
    }
    forall r0: nat, c0: nat | r0 + srn <= n && c0 + srn <= n && r0 % srn == 0 && c0 % srn == 0
      ensures forall v :: 1 <= v <= n ==> !UnusedInBox(g, n, srn, r0, c0, v)
    {
      BoxCovers(g, n, srn, r0, c0);
    }
  }

  // ---------------------------------------------------------------------------
  // Counting empty cells

  function ZerosInRow(row: seq<int>): (k: nat)
    ensures k <= |row|
  {
    if row == [] then 0 else (if row[0] == 0 then 1 else 0) + ZerosInRow(row[1..])
  }

  /** The number of empty cells of the grid. */
  function ZeroCount(g: Grid): nat {
    if g == [] then 0 else ZerosInRow(g[0]) + ZeroCount(g[1..])
  }

  /** Emptying one filled cell of a row adds exactly one empty cell. */
  lemma {:induction false} ZerosInRowBlank(row: seq<int>, j: nat)
    requires j < |row| && row[j] != 0
    ensures ZerosInRow(row[j := 0]) == ZerosInRow(row) + 1
  {
    if j > 0 {
      assert row[j := 0][1..] == row[1..][j - 1 := 0];
      ZerosInRowBlank(row[1..], j - 1);
    }
  }

  /** Emptying one filled cell adds exactly one empty cell to the grid. */
  lemma {:induction false} ZeroCountBlank(g: Grid, i: nat, j: nat)
    requires i < |g| && j < |g[i]| && g[i][j] != 0
    ensures ZeroCount(Set(g, i, j, 0)) == ZeroCount(g) + 1
  {
    if i == 0 {
      ZerosInRowBlank(g[0], j);
      assert Set(g, i, j, 0)[1..] == g[1..];
    } else {
      assert Set(g, i, j, 0)[1..] == Set(g[1..], i - 1, j, 0);
      ZeroCountBlank(g[1..], i - 1, j);
    }
  }

  /** A row has as many zeros as cells exactly when all its cells are zero,
      and no zero exactly when none of its cells is. */
  lemma {:induction false} ZerosInRowExtremes(row: seq<int>)
    ensures ZerosInRow(row) == |row| <==> forall c :: 0 <= c < |row| ==> row[c] == 0
    ensures ZerosInRow(row) == 0 <==> forall c :: 0 <= c < |row| ==> row[c] != 0
  {
    if row != [] {
      ZerosInRowExtremes(row[1..]);
      assert forall c :: 1 <= c < |row| ==> row[c] == row[1..][c - 1];
    }
  }

  /** Bounds on the number of empty cells of a grid whose rows have n cells:
      at most |g|*n, all cells empty exactly at |g|*n, none empty exactly at 0. */
  lemma {:induction false} ZeroCountExtremes(g: Grid, n: nat)
    requires forall r :: 0 <= r < |g| ==> |g[r]| == n
    ensures ZeroCount(g) <= |g| * n
    ensures ZeroCount(g) == |g| * n <==> forall r, c :: 0 <= r < |g| && 0 <= c < n ==> g[r][c] == 0
    ensures ZeroCount(g) == 0 <==> forall r, c :: 0 <= r < |g| && 0 <= c < n ==> g[r][c] != 0
  {
    if g != [] {
      ZerosInRowExtremes(g[0]);
      ZeroCountExtremes(g[1..], n);
      assert |g| * n == n + (|g| - 1) * n;
      assert forall r :: 1 <= r < |g| ==> g[r] == g[1..][r - 1];
    }
  }

  /** A grid with fewer than n*n empty cells has a filled cell. */
  lemma SomeFilled(g: Grid, n: nat) returns (r: nat, c: nat)
    requires IsGrid(g, n) && ZeroCount(g) < n * n
    ensures r < n && c < n && g[r][c] != 0
  {
    ZeroCountExtremes(g, n);
    r, c :| 0 <= r < n && 0 <= c < n && g[r][c] != 0;
  }

  /** Emptying one more filled cell keeps the grid well-formed and blanked from g0, with one
      more empty cell. */
  lemma BlankStep(g: Grid, g0: Grid, n: nat, i: nat, j: nat)
    requires IsGrid(g, n) && IsGrid(g0, n) && InRange(g, n) && Blanked(g, g0, n)
    requires i < n && j < n && g[i][j] != 0
    ensures IsGrid(Set(g, i, j, 0), n) && InRange(Set(g, i, j, 0), n) && Blanked(Set(g, i, j, 0), g0, n)
    ensures ZeroCount(Set(g, i, j, 0)) == ZeroCount(g) + 1
  {
    ZeroCountBlank(g, i, j);
  }

  /** Blanking twice is blanking. */
  lemma BlankedTrans(g2: Grid, g1: Grid, g0: Grid, n: nat)
    requires IsGrid(g2, n) && IsGrid(g1, n) && IsGrid(g0, n)
    requires Blanked(g2, g1, n) && Blanked(g1, g0, n)
    ensures Blanked(g2, g0, n)
  {
  }
}

=== FILE: pigeonhole.dfy ===
/** Counting facts about sequences of cell values: how many distinct values
    fit in a range, and when a sequence must cover the whole range 1..n. */
module Pigeonhole {

  /** No value occurs twice in `s`. */
  predicate Distinct(s: seq<int>) {
    forall p, q :: 0 <= p < q < |s| ==> s[p] != s[q]
  }

  /** The digits 1..n of an n-by-n puzzle, as a set. */
  function Digits(n: nat): (r: set<int>)
    ensures forall v :: v in r <==> 1 <= v <= n
    ensures |r| == n
  {
    if n == 0 then {} else Digits(n - 1) + {n}
  }

  /** Every set whose members all occur in `s` has at most |s| members. */
  lemma {:induction false} CoveredSetBound(s: seq<int>, a: set<int>)
    requires forall v :: v in a ==> v in s
    ensures |a| <= |s|
  {
    if |s| == 0 {
      assert forall v :: v !in a;
      assert a == {};
    } else {
      var rest := a - {s[0]};
      forall v | v in rest ensures v in s[1..] {
        var k :| 0 <= k < |s| && s[k] == v;
        assert k != 0;
        assert s[1..][k - 1] == v;
      }
      CoveredSetBound(s[1..], rest);
      if s[0] in a {
        assert a == rest + {s[0]};
      } else {
        assert a == rest;
      }
    }
  }

  /** A duplicate-free sequence whose elements are drawn from `a` is no longer than `a`. */
  lemma {:induction false} DistinctBound(s: seq<int>, a: set<int>)
    requires Distinct(s)
    requires forall k :: 0 <= k < |s| ==> s[k] in a
    ensures |s| <= |a|
  {
    if |s| > 0 {
      var rest := a - {s[0]};
      assert a == rest + {s[0]};
      forall k | 0 <= k < |s[1..]| ensures s[1..][k] in rest {
        assert s[1..][k] == s[k + 1] != s[0];
      }
      DistinctBound(s[1..], rest);
    }
  }

  /** Fewer than n values always leave some digit of 1..n out. */
  lemma Misses(s: seq<int>, n: nat)
    requires |s| < n
    ensures exists v :: 1 <= v <= n && v !in s
  {
    if forall v :: 1 <= v <= n ==> v in s {
      CoveredSetBound(s, Digits(n));
    }
  }

  /** n pairwise-distinct digits of 1..n are a permutation of 1..n: each digit occurs. */
  lemma Covers(s: seq<int>, n: nat)
    requires |s| == n && Distinct(s)
    requires forall k :: 0 <= k < |s| ==> 1 <= s[k] <= n
    ensures forall v :: 1 <= v <= n ==> v in s
  {
    forall v | 1 <= v <= n ensures v in s {
      if v !in s {
        var others := Digits(n) - {v};
        assert Digits(n) == others + {v};
        DistinctBound(s, others);
      }
    }
  }
}

=== FILE: random.dfy ===
/** Python's global `random` generator, as a fixed stream of raw draws and a cursor. */
module RandomSource {

  class Random {
    /** The raw draws, in the order the generator produces them. The stream is an oracle for
        verification only: a total infinite map is a specification value, not one a program builds. */
    const draws: imap<nat, nat>
    /** How many draws have been consumed. */
    var pos: nat

    constructor (draws: imap<nat, nat>)
      requires forall q: nat :: q in draws
      ensures this.draws == draws && pos == 0 && Total()
    {
      this.draws := draws;
      pos := 0;
    }

    /** `random.randint(lo, hi)`: the next draw, reduced into lo..hi. */
    method RandInt(lo: int, hi: int) returns (v: int)
      requires lo <= hi && Total()
      modifies this
      ensures pos == old(pos) + 1
      ensures v == lo + draws[old(pos)] % (hi - lo + 1)
      ensures lo <= v <= hi
    {
      v := lo + draws[pos] % (hi - lo + 1);
      pos := pos + 1;
    }

    /** Some whole number of pairs of draws after position p, the pair (x, y) of residues mod m is drawn. */
    ghost predicate PairLater(p: nat, m: nat, x: int, y: int)
      requires m > 0 && Total()
    {
      exists k: nat :: draws[p + 2 * k] % m == x && draws[p + 2 * k + 1] % m == y
    }

    /** The stream is endless: every position has a draw. */
    ghost predicate Total() {
      forall q: nat :: q in draws
    }

    /** The stream keeps producing every pair of residues mod m: the assumption under which
        the rejection loops of the generator end. */
    ghost predicate Fair(m: nat) {
      Total() && m > 0 && forall p: nat, x, y :: 0 <= x < m && 0 <= y < m ==> PairLater(p, m, x, y)
    }
  }
}

=== FILE: render.dfy ===
/** The text that print_sudoku writes: one line per row, cells separated by single
    spaces, `.` for an empty cell and the decimal value otherwise. */
module Render {

  predicate IsDigit(ch: char) {
    '0' <= ch <= '9'
  }

  function DigitChar(d: nat): (ch: char)
    requires d < 10
    ensures IsDigit(ch) && (ch == '0' <==> d == 0)
  {
    ('0' as int + d) as char
  }

  function DigitValue(ch: char): (d: nat)
    requires IsDigit(ch)
    ensures d < 10
  {
    ch as int - '0' as int
  }

  /** Python's str(n) for a natural number: its decimal digits, with no leading zero.
      Reading the digits back gives n. */
  function NatToString(n: nat): (s: string)
    ensures |s| > 0 && forall k :: 0 <= k < |s| ==> IsDigit(s[k])
    ensures s[0] == '0' <==> n == 0
    ensures ParseNat(s) == n
  {
    if n < 10 then [DigitChar(n)]
    else
      var s := NatToString(n / 10) + [DigitChar(n % 10)];
      assert s[..|s| - 1] == NatToString(n / 10);
      s
  }

  function ParseNat(s: string): nat
    requires forall k :: 0 <= k < |s| ==> IsDigit(s[k])
  {
    if s == [] then 0 else 10 * ParseNat(s[..|s| - 1]) + DigitValue(s[|s| - 1])
  }

  /** Python's str(v) for any integer. */
  function IntToString(v: int): string {
    if v < 0 then "-" + NatToString(-v) else NatToString(v)
  }

  /** A numeral of a positive number as str writes it: digits only, the first one not 0. */
  predicate IsPositiveNumeral(t: string) {
    |t| > 0 && (forall k :: 0 <= k < |t| ==> IsDigit(t[k])) && t[0] != '0'
  }

  /** Reads a cell's token back: "." is 0, a positive numeral is its value, and a minus sign
      before one is its negation. No cell is negative, so -1 marks any other token. */
  function ParseToken(t: string): int {
    if t == "." then 0
    else if IsPositiveNumeral(t) then ParseNat(t)
    else if |t| > 1 && t[0] == '-' && IsPositiveNumeral(t[1..]) then -(ParseNat(t[1..]) as int)
    else -1
  }

  /** The token print_sudoku writes for one cell. It is non-empty, holds no space or newline,
      reads back as the cell, and is "." exactly for an empty cell. */
  function Token(v: int): (t: string)
    ensures |t| > 0 && ' ' !in t && '\n' !in t
    ensures ParseToken(t) == v
    ensures t == "." <==> v == 0
  {
    if v == 0 then "."
    else
      var t := IntToString(v);
      assert t != "." by {
        assert IsDigit(NatToString(if v < 0 then -v else v)[0]);
      }
      if v < 0 then
        assert t[1..] == NatToString(-v);
        t
      else
        t
  }

  /** Python's sep.join(parts). Splitting on sep undoes it when no part contains sep. */
  function Join(parts: seq<string>, sep: char): (s: string)
    ensures |parts| > 0 && (forall k :: 0 <= k < |parts| ==> sep !in parts[k]) ==> Split(s, sep) == parts
  {
    if |parts| == 0 then ""
    else if |parts| == 1 then
      SplitPiece(parts[0], sep, "");
      parts[0]
    else
      var rest := Join(parts[1..], sep);
      SplitPiece(parts[0], sep, rest);
      parts[0] + [sep] + rest
  }

  /** The pieces of s between occurrences of sep (Python's s.split(sep)). */
  function Split(s: string, sep: char): (parts: seq<string>)
    ensures |parts| > 0
  {
    if s == [] then [""]
    else
      var rest := Split(s[1..], sep);
      if s[0] == sep then [""] + rest else [[s[0]] + rest[0]] + rest[1..]
  }

  /** Splitting a piece without separators, followed by a separator, peels that piece off. */
  lemma {:induction false} SplitPiece(p: string, sep: char, rest: string)
    ensures sep !in p ==> Split(p + [sep] + rest, sep) == [p] + Split(rest, sep)
    ensures sep !in p ==> Split(p, sep) == [p]
  {
    if p != [] && sep !in p {
      assert (p + [sep] + rest)[1..] == p[1..] + [sep] + rest;
      SplitPiece(p[1..], sep, rest);
      assert [p[0]] + p[1..] == p;
    }
  }

  /** Joining pieces that avoid a character, with another separator, avoids it too. */
  lemma {:induction false} JoinAvoids(parts: seq<string>, sep: char, ch: char)
    requires sep != ch
    requires forall k :: 0 <= k < |parts| ==> ch !in parts[k]
    ensures ch !in Join(parts, sep)
  {
    if |parts| > 1 {
      JoinAvoids(parts[1..], sep, ch);
    }
  }

  function Tokens(row: seq<int>): (ts: seq<string>)
    ensures |ts| == |row| && forall k :: 0 <= k < |row| ==> ts[k] == Token(row[k])
  {
    seq(|row|, k requires 0 <= k < |row| => Token(row[k]))
  }

  /** One printed line: the row's tokens joined by single spaces. It holds no newline,
      and a non-empty row reads back from it. */
  function RenderRow(row: seq<int>): (line: string)
    ensures '\n' !in line
    ensures |row| > 0 ==> ParseRow(line) == row
  {
    var ts := Tokens(row);
    JoinAvoids(ts, ' ', '\n');
    Join(ts, ' ')
  }

  function ParseRow(line: string): seq<int> {
    var ts := Split(line, ' ');
    seq(|ts|, k requires 0 <= k < |ts| => ParseToken(ts[k]))
  }

  /** The whole printout: each row's line followed by the newline print adds. A grid whose
      rows are non-empty reads back from it. */
  function RenderGrid(g: seq<seq<int>>): (text: string)
    ensures (forall r :: 0 <= r < |g| ==> |g[r]| > 0) ==> ParseGrid(text) == g
  {
    if g == [] then ""
    else
      var rest := RenderGrid(g[1..]);
      ParseGridLine(RenderRow(g[0]), rest);
      RenderRow(g[0]) + "\n" + rest
  }

  function ParseGrid(text: string): seq<seq<int>> {
    var lines := Split(text, '\n');
    var body := lines[..|lines| - 1];
    seq(|body|, k requires 0 <= k < |body| => ParseRow(body[k]))
  }

  /** A leading line without newlines is read first, then the rest of the text. */
  lemma ParseGridLine(line: string, rest: string)
    requires '\n' !in line
    ensures ParseGrid(line + "\n" + rest) == [ParseRow(line)] + ParseGrid(rest)
  {
    SplitPiece(line, '\n', rest);
  }

  /** The formatter on the rows of the 2-by-2 grid [[1, 0], [0, 2]]. */
  lemma RenderRowExample()
    ensures RenderRow([1, 0]) == "1 ."
    ensures RenderRow([0, 2]) == ". 2"
  {
    assert Token(1) == "1" && Token(2) == "2" && Token(0) == ".";
    assert Tokens([1, 0]) == ["1", "."];
    assert Tokens([0, 2]) == [".", "2"];
  }

  /** The formatter on the whole 2-by-2 grid [[1, 0], [0, 2]]. */
  lemma RenderExample()
    ensures RenderGrid([[1, 0], [0, 2]]) == "1 .\n. 2\n"
  {
    RenderRowExample();
    var g: seq<seq<int>> := [[1, 0], [0, 2]];
    assert g[1..][1..] == [];
    assert RenderGrid(g[1..]) == ". 2" + "\n" + "";
    assert "1 ." + "\n" + ". 2\n" == "1 .\n. 2\n";
    assert RenderGrid(g) == "1 .\n. 2\n";
  }
}

=== FILE: sudoku.dfy ===
/** The puzzle generator: a Sudoku object holding an N-by-N grid that it seeds,
    tries to complete by backtracking and then blanks K cells of. */
module SudokuGame {
  import opened Pigeonhole
  import opened Grids
  import opened Config
  import opened RandomSource
  import opened Render

  class Sudoku {
    /** Side of the grid. */
    const N: nat
    /** Number of cells to blank. */
    const K: nat
    /** Side of a box: the square root of N. */
    const SRN: nat
    /** The grid, row by row; 0 is an empty cell. */
    var mat: Grid

    ghost predicate Valid()
      reads this
    {
      Shape(N, SRN) && K <= N * N && IsGrid(mat, N) && InRange(mat, N)
    }

    /** The constructor once the configuration check has passed: an empty N-by-N grid. */
    constructor (n: nat, k: nat)
      requires CheckConfig(n, k).Success?
      ensures Valid() && AllZero(mat, N)
      ensures N == n && K == k && SRN == CheckConfig(n, k).value
    {
      N := n;
      K := k;
      FloorSqrtOfSquare(n);
      SRN := FloorSqrt(n);
      mat := seq(n, _ => seq(n, _ => 0));
    }

    /** Scans the box with top-left cell (rowStart, colStart) for num. */
    method IsUnusedInBox(rowStart: nat, colStart: nat, num: int) returns (unused: bool)
      requires Valid() && rowStart + SRN <= N && colStart + SRN <= N
      ensures unused <==> UnusedInBox(mat, N, SRN, rowStart, colStart, num)
    {
      for i := 0 to SRN
        invariant forall r, c :: Before(r, c, rowStart + i, colStart) && rowStart <= r < rowStart + SRN && colStart <= c < colStart + SRN ==> mat[r][c] != num
      {
        for j := 0 to SRN
          invariant forall r, c :: Before(r, c, rowStart + i, colStart + j) && rowStart <= r < rowStart + SRN && colStart <= c < colStart + SRN ==> mat[r][c] != num
        {
          if mat[rowStart + i][colStart + j] == num {
            return false;
          }
        }
      }
      return true;
    }

    /** num may go into cell (i, j): row first, then column, then box. */
    method IsSafe(i: nat, j: nat, num: int) returns (safe: bool)
      requires Valid() && i < N && j < N
      ensures safe <==> Grids.IsSafe(mat, N, SRN, i, j, num)
    {
      CornerFits(i, N, SRN);
      CornerFits(j, N, SRN);
      safe := UnusedInRow(mat, i, num) && UnusedInCol(mat, N, j, num);
      if safe {
        safe := IsUnusedInBox(i - i % SRN, j - j % SRN, num);
      }
    }

    /** One cell of _fill_box: draws 1..N until the draw is not yet in the box at
        (row, col), then writes it into the empty cell (r, c) of that box. The
        ghost v is a digit the box still lacks, so a fair stream eventually draws one. */
    method DrawUnused(row: nat, col: nat, r: nat, c: nat, rng: Random, ghost v: int) returns (num: int)
      requires Valid() && rng.Fair(N) && row + SRN <= N && col + SRN <= N
      requires row <= r < row + SRN && col <= c < col + SRN && mat[r][c] == 0
      requires 1 <= v <= N && UnusedInBox(mat, N, SRN, row, col, v)
      modifies this, rng
      ensures 1 <= num <= N && UnusedInBox(old(mat), N, SRN, row, col, num)
      ensures mat == Set(old(mat), r, c, num) && Valid()
    {
      assert rng.PairLater(rng.pos, N, v - 1, 0);
      ghost var target :| rng.pos <= target && rng.draws[target] % N == v - 1;
      while true
        invariant mat == old(mat) && rng.pos <= target
        decreases target - rng.pos
      {
        num := rng.RandInt(1, N);
        var unused := IsUnusedInBox(row, col, num);
        if unused {
          mat := Set(mat, r, c, num);
          return;
        }
      }
    }

    /** Fills the empty box at (row, col) cell by cell, in row-major order, drawing
        1..N until the draw is not yet in the box. */
    method FillBox(row: nat, col: nat, rng: Random)
      requires Valid() && rng.Fair(N) && row + SRN <= N && col + SRN <= N
      requires forall r, c :: row <= r < row + SRN && col <= c < col + SRN ==> mat[r][c] == 0
      modifies this, rng
      ensures Valid() && BoxSeeded(mat, old(mat), N, SRN, row, col)
    {
      ghost var used: seq<int> := [];
      var i := 0;
      while i < SRN
        invariant i <= SRN && Valid() && BoxProgress(mat, old(mat), N, SRN, row, col, row + i, col, used)
        invariant |used| == i * SRN
      {
        var j := 0;
        while j < SRN
          invariant j <= SRN && Valid() && BoxProgress(mat, old(mat), N, SRN, row, col, row + i, col + j, used)
          invariant |used| == i * SRN + j
        {
          FewerThanBox(i, j, SRN);
          Misses(used, N);
          ghost var v :| 1 <= v <= N && v !in used;
          ghost var m0, used0, j0 := mat, used, j;
          var num := DrawUnused(row, col, row + i, col + j, rng, v);
          used := used + [num];
          j := j + 1;
          BoxFillStep(mat, m0, old(mat), N, SRN, row, col, i, j0, j, num, used, used0);
        }
        ghost var i0 := i;
        i := i + 1;
        BoxRowDone(mat, old(mat), N, SRN, row, col, i0, i, used);
      }
      BoxDone(mat, old(mat), N, SRN, row, col, used);
    }

    /** Seeds the boxes on the main diagonal, top-left to bottom-right. */
    method FillDiagonal(rng: Random)
      requires Valid() && rng.Fair(N) && AllZero(mat, N)
      modifies this, rng
      ensures Valid() && DiagonalSeeded(mat, N, SRN)
    {
      SeededStart(mat, N, SRN);
      var i := 0;
      while i < N
        invariant i <= N && i % SRN == 0
        invariant Valid() && SeededBelow(mat, N, SRN, i)
      {
        CornerFits(i, N, SRN);
        DiagonalBoxEmpty(mat, N, SRN, i);
        ghost var before := mat;
        FillBox(i, i, rng);
        DiagonalStep(mat, before, N, SRN, i);
        i := i + SRN;
        NextCorner(i - SRN, i, SRN);
      }
    }

    /** Backtracking completion from position (i0, j0) in row-major order, where position
        (i, N) stands for (i + 1, 0). On success every cell from (i0, j0) on is filled; on
        failure the grid is as it was. Cells before (i0, j0) and filled cells never change. */
    method FillRemaining(i0: nat, j0: nat) returns (ok: bool)
      requires Valid() && i0 < N && j0 <= N
      modifies this
      ensures Valid() && Extends(mat, old(mat), N) && SameBefore(mat, old(mat), N, i0, j0)
      ensures Consistent(old(mat), N, SRN) ==> Consistent(mat, N, SRN)
      ensures !ok ==> mat == old(mat)
      ensures ok ==> FilledFrom(mat, N, i0, j0)
      ensures FilledFrom(old(mat), N, i0, j0) ==> ok
      decreases N - i0, N - j0, 1
    {
      if i0 == N - 1 && j0 == N {
        return true;
      }
      var i, j := i0, j0;
      if j == N {
        i, j := i + 1, 0;
      }
      FilledFromStep(mat, N, i0, j0, i, j);
      if mat[i][j] != 0 {
        ok := FillRemaining(i, j + 1);
        CompletionStep(mat, old(mat), old(mat), N, i0, j0, i, j);
        return;
      }
      ok := TryDigits(i, j);
      SamePosition(mat, old(mat), N, i0, j0, i, j);
    }

    /** The loop of _fill_remaining over the empty cell (i, j): tries 1..N in order, writes the
        first safe digit that lets the rest of the grid be completed, and undoes each write
        that does not. */
    method TryDigits(i: nat, j: nat) returns (ok: bool)
      requires Valid() && i < N && j < N && mat[i][j] == 0
      modifies this
      ensures Valid() && Extends(mat, old(mat), N) && SameBefore(mat, old(mat), N, i, j)
      ensures Consistent(old(mat), N, SRN) ==> Consistent(mat, N, SRN)
      ensures !ok ==> mat == old(mat)
      ensures ok ==> FilledFrom(mat, N, i, j)
      decreases N - i, N - j, 0
    {
      for num := 1 to N + 1
        invariant mat == old(mat)
      {
        var safe := IsSafe(i, j, num);
        if safe {
          if Consistent(mat, N, SRN) {
            SafeKeepsConsistent(mat, N, SRN, i, j, num);
          }
          mat := Set(mat, i, j, num);
          ghost var placed := mat;
          ok := FillRemaining(i, j + 1);
          if ok {
            CompletionStep(mat, placed, old(mat), N, i, j, i, j);
            return;
          }
          SetUndo(old(mat), i, j, num);
          mat := Set(mat, i, j, 0);
        }
      }
      return false;
    }

    /** One round of _remove_k_digits: draws a row and a column of 0..N-1 and blanks that
        cell if it is filled. The ghost rounds counts the rounds left until the stream names
        a filled cell; rounds' is that count afterwards. */
    method BlankDrawn(rng: Random, ghost rounds: nat) returns (hit: bool, ghost rounds': nat)
      requires Valid() && rng.Fair(N) && DrawnCell(mat, N, rng, rng.pos + 2 * rounds) != 0
      modifies this, rng
      ensures rng.pos == old(rng.pos) + 2 && Valid()
      ensures hit <==> DrawnCell(old(mat), N, rng, old(rng.pos)) != 0
      ensures hit ==> mat == Set(old(mat), rng.draws[old(rng.pos)] % N, rng.draws[old(rng.pos) + 1] % N, 0)
      ensures hit ==> Blanked(mat, old(mat), N) && ZeroCount(mat) == old(ZeroCount(mat)) + 1
      ensures hit && ZeroCount(mat) < N * N ==> DrawnCell(mat, N, rng, rng.pos + 2 * rounds') != 0
      ensures !hit ==> mat == old(mat) && rounds' < rounds
      ensures !hit ==> DrawnCell(mat, N, rng, rng.pos + 2 * rounds') != 0
    {
      ghost var p := rng.pos;
      rounds' := 0;
      var i := rng.RandInt(0, N - 1);
      var j := rng.RandInt(0, N - 1);
      hit := mat[i][j] != 0;
      if hit {
        BlankStep(mat, mat, N, i, j);
        mat := Set(mat, i, j, 0);
        if ZeroCount(mat) < N * N {
          rounds' := FilledCellAhead(mat, N, rng, rng.pos);
        }
      } else {
        rounds' := DrawsMiss(mat, N, rng, p, rounds, rng.pos);
      }
    }

    /** Blanks K filled cells, each chosen by two draws of 0..N-1 and redrawn while the
        drawn cell is already empty. */
    method RemoveKDigits(rng: Random)
      requires Valid() && rng.Fair(N) && ZeroCount(mat) + K <= N * N
      modifies this, rng
      ensures Valid() && Blanked(mat, old(mat), N)
      ensures ZeroCount(mat) == old(ZeroCount(mat)) + K
      ensures Consistent(old(mat), N, SRN) ==> Consistent(mat, N, SRN)
    {
      var count := K;
      // ghost: the number of further rounds until the stream draws a filled cell
      ghost var rounds: nat := 0;
      if count != 0 {
        rounds := FilledCellAhead(mat, N, rng, rng.pos);
      }
      while count != 0
        invariant Valid() && Blanked(mat, old(mat), N)
        invariant ZeroCount(mat) + count == old(ZeroCount(mat)) + K
        invariant count != 0 ==> DrawnCell(mat, N, rng, rng.pos + 2 * rounds) != 0
        decreases count, rounds
      {
        ghost var before := mat;
        var hit;
        hit, rounds := BlankDrawn(rng, rounds);
        if hit {
          BlankedTrans(mat, before, old(mat), N);
          count := count - 1;
        }
      }
      if Consistent(old(mat), N, SRN) {
        BlankedConsistent(mat, old(mat), N, SRN);
      }
    }

    /** fill_values: seed the diagonal boxes, try to complete the grid from (0, SRN), then blank K
        cells. When the completion succeeds, the result is a solved grid with exactly K
        cells emptied. */
    method FillValues(rng: Random) returns (ghost completed: bool, ghost solution: Grid)
      requires Valid() && rng.Fair(N) && AllZero(mat, N)
      modifies this, rng
      ensures Valid() && Consistent(mat, N, SRN)
      ensures completed ==> Solved(solution, N, SRN) && Blanked(mat, solution, N) && ZeroCount(mat) == K
      ensures !completed ==> IsGrid(solution, N) && DiagonalSeeded(solution, N, SRN) && Blanked(mat, solution, N)
      ensures !completed ==> if ZeroCount(solution) + K <= N * N then ZeroCount(mat) == ZeroCount(solution) + K else mat == solution
    {
      FillDiagonal(rng);
      DiagonalConsistent(mat, N, SRN);
      ghost var seeded := mat;
      SquareLeq(1, SRN);
      completed := FillRemaining(0, SRN);
      solution := mat;
      if completed {
        forall c | 0 <= c < SRN ensures mat[0][c] != 0 {
          CornerOfOffset(0, 0, SRN);
          CornerOfOffset(0, c, SRN);
        }
      }
      ZeroCountExtremes(mat, N);
      if ZeroCount(mat) + K <= N * N {
        RemoveKDigits(rng);
      } else {
        completed := false;
      }
    }

    /** print_sudoku's text: one line per row, a `.` for each empty cell. The grid can be
        read back from it. */
    function PrintSudoku(): (text: string)
      reads this
      requires Valid()
      ensures ParseGrid(text) == mat
    {
      RenderGrid(mat)
    }
  }

  /** The Sudoku constructor: the configuration errors, or a fresh object with an empty grid. */
  method Create(n: int, k: int) returns (r: Result<Sudoku>)
    ensures r.Failure? <==> CheckConfig(n, k).Failure?
    ensures r.Failure? ==> r.error == CheckConfig(n, k).error
    ensures r.Success? ==> fresh(r.value) && r.value.Valid() && AllZero(r.value.mat, r.value.N)
    ensures r.Success? ==> r.value.N == n && r.value.K == k && r.value.SRN == CheckConfig(n, k).value
  {
    var c := CheckConfig(n, k);
    if c.Failure? {
      return Failure(c.error);
    }
    var s := new Sudoku(n, k);
    return Success(s);
  }

  /** The cell of g named by the two draws at position q. */
  ghost function DrawnCell(g: Grid, n: nat, rng: Random, q: nat): int
    requires IsGrid(g, n) && n > 0 && rng.Total()
  {
    g[rng.draws[q] % n][rng.draws[q + 1] % n]
  }

  /** When the two draws at p name an empty cell, the round that names a filled cell, k
      rounds after p, is k' < k rounds after the next position q. */
  lemma DrawsMiss(g: Grid, n: nat, rng: Random, p: nat, k: nat, q: nat) returns (k': nat)
    requires IsGrid(g, n) && n > 0 && rng.Total() && DrawnCell(g, n, rng, p + 2 * k) != 0 && q == p + 2
    requires DrawnCell(g, n, rng, p) == 0
    ensures k' < k && DrawnCell(g, n, rng, q + 2 * k') != 0
  {
    if k == 0 {
      assert false;
    }
    k' := k - 1;
  }

  /** Some whole number of rounds (pairs of draws) after position p, a fair stream draws the
      row and column of a filled cell, provided some cell is filled. */
  lemma FilledCellAhead(g: Grid, n: nat, rng: Random, p: nat) returns (k: nat)
    requires IsGrid(g, n) && rng.Fair(n) && ZeroCount(g) < n * n
    ensures DrawnCell(g, n, rng, p + 2 * k) != 0
  {
    var r, c := SomeFilled(g, n);
    assert rng.PairLater(p, n, r, c);
    k :| rng.draws[p + 2 * k] % n == r && rng.draws[p + 2 * k + 1] % n == c;
  }

  /** i full rows of a box and j more cells are fewer than the box's srn*srn cells. */
  lemma FewerThanBox(i: nat, j: nat, srn: nat)
    requires i < srn && j < srn
    ensures i * srn + j < srn * srn
  {
    MulLeq(srn, i + 1, srn);
  }

  // ---------------------------------------------------------------------------
  // A seeding that no completion extends

  /** A diagonal seeding of the 4-by-4 grid: the top-left box drew 1, 2, 3, 4 and the
      bottom-right box drew 3, 1, 4, 2. */
  function StuckGrid(): (g: Grid)
    ensures |g| == 4 && forall r :: 0 <= r < 4 ==> |g[r]| == 4
  {
    [[1, 2, 0, 0], [3, 4, 0, 0], [0, 0, 3, 1], [0, 0, 4, 2]]
  }

  /** The seeding above is one the diagonal fill can produce: each diagonal box holds
      1..4 without repeats and every other cell is empty. */
  lemma StuckSeeded()
    ensures IsGrid(StuckGrid(), 4) && InRange(StuckGrid(), 4) && DiagonalSeeded(StuckGrid(), 4, 2)
  {
    StuckCells();
    StuckBoxes();
  }

  /** Which cells of that seeding are filled: exactly those of the two diagonal boxes. */
  lemma StuckCells()
    ensures forall r, c :: 0 <= r < 4 && 0 <= c < 4 ==>
      if Corner(r, 2) == Corner(c, 2) && Corner(r, 2) < 4 then 1 <= StuckGrid()[r][c] <= 4 else StuckGrid()[r][c] == 0
  {
    forall r, c | 0 <= r < 4 && 0 <= c < 4
      ensures if Corner(r, 2) == Corner(c, 2) && Corner(r, 2) < 4 then 1 <= StuckGrid()[r][c] <= 4 else StuckGrid()[r][c] == 0
    {
      assert Corner(r, 2) == r - r % 2 && Corner(c, 2) == c - c % 2;
    }
  }

  /** No box of that seeding repeats a digit. */
  lemma StuckBoxes()
    ensures BoxesOk(StuckGrid(), 4, 2)
  {
    var s := StuckGrid();
    forall r0: nat, c0: nat | r0 + 2 <= 4 && c0 + 2 <= 4 && r0 % 2 == 0 && c0 % 2 == 0
      ensures BoxDistinct(s, 4, 2, r0, c0)
    {
      assert r0 == 0 || r0 == 2;
      assert c0 == 0 || c0 == 2;
    }
  }

  /** That seeding leaves 8 empty cells. */
  lemma StuckZeros()
    ensures ZeroCount(StuckGrid()) == 8
  {
    var s := StuckGrid();
    assert ZerosInRow(s[0]) == 2 && ZerosInRow(s[1]) == 2 && ZerosInRow(s[2]) == 2 && ZerosInRow(s[3]) == 2;
    assert s[1..][1..][1..][1..] == [];
  }

  /** In that seeding no digit is safe at cell (0, 2): row 0 holds 1 and 2, column 2
      holds 3 and 4. */
  lemma StuckUnsafe()
    ensures forall v :: 1 <= v <= 4 ==> !Grids.IsSafe(StuckGrid(), 4, 2, 0, 2, v)
  {
    var s := StuckGrid();
    forall v | 1 <= v <= 4 ensures !Grids.IsSafe(s, 4, 2, 0, 2, v) {
      if v <= 2 {
        assert s[0][v - 1] == v;
        assert !UnusedInRow(s, 0, v);
      } else {
        assert s[v - 1][2] == v;
        assert !UnusedInCol(s, 4, 2, v);
      }
    }
  }

  /** So no consistent grid that keeps the seeds fills cell (0, 2). */
  lemma StuckNoFill(g: Grid)
    requires IsGrid(g, 4) && InRange(g, 4) && Extends(g, StuckGrid(), 4) && Consistent(g, 4, 2)
    ensures g[0][2] == 0
  {
    var s := StuckGrid();
    assert s[0][0] == 1 && s[0][1] == 2 && s[2][2] == 3 && s[3][2] == 4;
    assert g[0][0] == 1 && g[0][1] == 2 && g[2][2] == 3 && g[3][2] == 4;
  }

  /** Completing the seeding above from (0, 2), as fill_values does, fails. */
  method StuckCompletion() returns (ok: bool)
    ensures !ok
  {
    assert IsRootOf(2, 4);
    var s := new Sudoku(4, 0);
    assert s.SRN == 2;
    s.mat := StuckGrid();
    StuckSeeded();
    DiagonalConsistent(s.mat, 4, 2);
    ok := s.FillRemaining(0, 2);
    if ok {
      StuckNoFill(s.mat);
    }
  }
}
